=== FILE: README.md ===
# Neko Next: the desktop cat's behaviour, modelled in Dafny

Neko Next puts a small cat on the Windows desktop. The cat chases the mouse
cursor. When it is near the cursor it idles through a fixed progression:
awake, alert, scratch, wash, yawn, a longer awake pause, then sleep. A tray
menu sends commands to the game loop through a buffered channel of closures.
The commands are sleep on/off, hide on/off and teleport-to-cursor.

This project models the per-tick behaviour of `main.go` as pure functions
over an immutable record:

- `Cat` holds the `neko` record (`Neko`), the sound cues (`Cue`), the
  phase constants, the invariant `Valid` and the start-up state `Initial`.
- `Idle` models `stayIdle`. It maps `state` to a sprite and, in the yawn
  phase, to longer thresholds. An independent table (`Progression`) states
  the same progression row by row.
- `Seek` models `catchCursor`. It re-arms the progression and buckets the
  heading into eight direction sprites. `Bucket` is the source's guard chain
  in the source's order. `Sectors` is an independent table of eight 45-degree
  sectors, each half-open as (lo, hi].
- `Frame` models the non-rendering part of `Draw`. That is the frame key
  ("awake", or sprite + "1"/"2"), the fallback to "awake" for a missing image,
  and the phase rollover that advances `state` and sounds the sleep cue.
- `Commands` models the tray closures (`Apply`), the drain loop
  (`DrainQueue`) and its fold (`Drain`). A last-writer-wins description
  (`Overlay`) serves as an independent reference for a drained batch.
- `Loop` models `Update` and `Tick` (an `Update` followed by a `Draw`). It
  covers the command drain, the tick counter, the pre-sleep cue, the
  stay-on-primary auto-sleep and auto-wake, the idle-or-seek gate, the
  waking cue, and the clamp to the virtual screen.

Several things the loop reads from the system become inputs of a tick (the
`Sample` record):

- the mouse position;
- the primary monitor's size;
- the virtual-screen rectangle;
- the window's size in physical pixels;
- the integer distance to the cursor;
- the heading to the cursor in degrees;
- the movement step.

The catch distance `int(32 * scale)` and the stay-on-primary setting are a
`Config`. Sound cues are returned as events, in the order they would play.

Four behaviours of the loop are worth stating on their own:

- The Hide menu item is described as hiding the cat while it is "still
  running" (main.go:369). But `Draw` returns for a hidden cat before the
  rollover (main.go:317-319), and the rollover is the only step that moves
  the progression past state 1. `Update` still runs in full, so a hidden
  cat can still move from state 0 to 1 (main.go:261-262) or be set to
  state 13 by sleep-on (main.go:436) or by the stay-on-primary policy
  (main.go:196). Beyond that, while the cat is hidden its idle progression
  does not advance, and `count` keeps growing.
- An automatic wake-up (the cursor comes back onto the primary monitor)
  resets `state` to 0 (main.go:205) before the waking-cue test reads it
  (main.go:226). So that wake-up is silent: `Loop.Behave` states that the
  "awake" cue plays only when the cat was not waiting.
- Three steps can lower `state`. When the cursor leaves the primary
  monitor, an awake cat is forced to state 13 (main.go:194-197), even from
  a later sleep state such as 20. When the cursor comes back, the cat is
  reset to state 0 (main.go:203-205). A sleep-on command also sets state
  13 (main.go:436), whatever the state was. With no commands, an idling
  cat's `state` never decreases on any tick other than those two policy
  ticks (`Loop.IdleTickNeverLowersState`).
- If neither the requested frame nor the "awake" fallback has an image,
  `Draw` passes a nil image to the draw call (main.go:332-335, 353). The
  model shows this as a `Missing` picture.

## Model

| member | source | states |
|---|---|---|
| Cat.Initial | main.go:654-660 | The start state satisfies the invariant: not waiting, not hidden, state 0, count 0, thresholds 8/16. Each coordinate is a whole number within one of half the monitor size, rounded toward zero as Go's integer division does (`W - 2x` is in [0, 1] for `W >= 0` and in [-1, 0] otherwise). |
| Idle.StayIdle | main.go:259-282 | The only change to `state` is 0 to 1. The sprite is always an idle sprite. `min`/`max` become 32/64 exactly in states 8-9 and are otherwise kept. No other field changes. |
| Idle.StayIdleFollowsProgression | main.go:260-281 | For every integer state, the sprite chosen is the one the progression table gives. The table is awake 0-1, alert 2-3, scratch 4-5, wash 6-7, yawn 8-9, awake 10-12, and sleep everywhere else. |
| Idle.ProgressionTilesStates | main.go:260-281 | The progression rows cover states 0 to 12 contiguously and in order, so sleep starts at state 13. |
| Seek.SectorsPartition | main.go:292-309 | Every heading in [0, 360) lies in exactly one of the eight half-open sectors. |
| Seek.BucketAgreesWithSectors | main.go:292-309 | For headings in [0, 360), the source's guard chain picks a sector's direction if and only if the heading lies in that sector. |
| Seek.CatchCursor | main.go:284-310 | The seek step always sets state 0 and thresholds 8/16. Its sprite is one of the eight direction names: exactly the name of the sector holding the heading. No other field changes. |
| Frame.FrameKey | main.go:321-329 | "awake" is used unchanged. Any other sprite gets one extra character, which is '1' exactly when `count < min` and '2' otherwise. |
| Frame.SplitKeyInvertsFrameKey | main.go:321-329 | For every known sprite, the frame key splits back into that sprite and its frame number. |
| Frame.Resolve | main.go:331-336 | The picture always names the requested key. A key with a stored image is drawn with it. Otherwise the "awake" image is drawn if it is loaded. A drawn image is always a loaded one. There is no image at all exactly when neither the key nor "awake" is loaded. |
| Frame.KnownSpriteHasFrame | main.go:321-329 | Every frame key of a known sprite is one of the 27 frame images ("awake" plus frames 1 and 2 of the 13 other sprites). |
| Frame.KnownSpriteNeverFallsBack | main.go:331-336 | With all 27 frame images loaded, a frame of a known sprite is drawn with its own image rather than the fallback. |
| Frame.Draw | main.go:312-347 | A hidden cat draws nothing and changes nothing. Otherwise the frame key is shown. When `count > max`, `count` becomes 0 and `state` rises by exactly 1 iff it was above 0. `state` never decreases. The sleep cue plays iff `state` rises to 13. Only `count` and `state` change. |
| Frame.DrawKeepsValid | main.go:338-347 | `Draw` keeps the invariant, and a visible cat leaves it with `count <= max`. |
| Frame.DrawAgainChangesNothing | main.go:338-347 | From a valid state, a second `Draw` with no `Update` in between changes nothing and sounds no cue. |
| Commands.Apply | main.go:416-446 | Sleep-on sets waiting, manual sleep and state 13. Sleep-off clears waiting and manual sleep and keeps state. Hide-on sets `hidden` and hide-off clears it, and only they change it. Teleport sets the position exactly to the sampled mouse position. Each command preserves manual-sleep-implies-waiting and touches nothing else. |
| Commands.DrainQueue | main.go:152-160 | The drain loop applies the queued commands one at a time, first sent first. |
| Commands.DrainSplit | main.go:152-160 | Draining a batch in one go gives the same state as draining it in two consecutive parts. |
| Commands.DrainKeepsValid | main.go:424-438 | Draining any batch keeps the invariant, including manual-sleep-implies-waiting. |
| Commands.DrainKeepsPhase | main.go:416-446 | Draining any batch leaves `count`, `min`, `max`, `sprite` and `distance` unchanged. |
| Commands.OverlaySnoc | main.go:152-160 | Appending one command to a batch changes its last-writer overlay exactly as applying that command does. |
| Commands.DrainIsOverlay | main.go:152-160 | After a drain, each field a command writes holds the value of the last command that writes it. Every other field is unchanged. Only sleep-on writes `state`. |
| Commands.DrainEmpty | main.go:152-160 | Draining an empty queue leaves the cat unchanged. |
| Loop.Clamp | main.go:242-247 | If the cat fits, the coordinate ends in [lo, lo + extent - size]. A coordinate below the range goes to lo and one above it goes to lo + extent - size. If it does not fit, the coordinate equals lo, because `max` wins. A coordinate already in range is kept. |
| Loop.ClampIdempotent | main.go:246-247 | Clamping twice is the same as clamping once. |
| Loop.Behave | main.go:162-256 | On the drained state, `count` rises by exactly 1. The pre-sleep cue plays iff state is 10 and the new count equals `min`. With stay-on-primary and no manual sleep, a cursor off the primary monitor leaves the cat waiting and unmoved, whatever the distance, and state is forced to 13 only if the cat was not already waiting. Back on the primary monitor, a waiting cat wakes (state 0 or 1, never negative). A waiting cat, or one closer than the catch distance, does not move and shows an idle sprite. Otherwise the cat moves by the clamped step, faces the heading's sector, and plays the waking cue iff it was not waiting and its state was at least 13. |
| Loop.IdleFollowsPolicy | main.go:189-224 | A cat that idles this tick continues the progression table from the state the stay-on-primary policy leaves it in. That is 13 on the tick the cursor leaves the primary monitor, 0 on the tick it comes back, and the drained state otherwise. The cat shows that state's sprite from the table, moves from 0 to 1, and takes the yawn thresholds exactly in states 8-9. |
| Loop.Update | main.go:149-256 | Every queued command is applied before any other logic. Over the whole update `count` rises by exactly 1, because commands never touch it. The pre-sleep cue depends on the state after the commands and on the counter as it was. Hiding takes effect in the same tick. Manual sleep is the drained value and manual-sleep-implies-waiting is preserved. `waiting` follows the stay-on-primary policy from the drained value. An idling cat stays at the drained position, so a teleport holds. A seeking cat takes one clamped step from the drained position. |
| Loop.TeleportLandsInUpdate | main.go:152-160 | When a batch holds a teleport and the cat idles this tick, the update leaves it exactly at the position the batch's last teleport sampled. |
| Loop.UpdateKeepsValid | main.go:189-212 | `Update` keeps the invariant. Manual sleep still implies waiting, because the auto-wake branch needs `!manualSleep`. |
| Loop.ManualSleepShowsSleep | main.go:433-437 | If the last sleep command of a batch is sleep-on, the update ends waiting, in manual sleep, at state 13, showing "sleep", wherever the cursor is. |
| Loop.Tick | main.go:149-347 | A tick draws nothing iff the drained state is hidden. Otherwise the key it draws is one of the 27 frame names and names the sprite `Update` chose. The sleep cue leaves the cat in state 13. A tick sounds at most one cue, because the pre-sleep, waking and sleep cues need states 10, at least 13 and a rise from 12. |
| Loop.TickKeepsValid | main.go:149-347 | Every tick keeps the invariant. |
| Loop.TickNeverFallsBack | main.go:331-336 | With all 27 frame images loaded, a visible tick draws its frame with that frame's own image. |
| Loop.PreSleepCueNotRepeated | main.go:164-167 | The pre-sleep cue never plays on two ticks in a row, whatever the commands and inputs of either tick. |
| Loop.PreSleepCueSpends | main.go:164-167 | After the tick that plays the pre-sleep cue, a cat still in state 10 has `count >= min`, so its cue is spent. |
| Loop.CueSpentKeepsSilent | main.go:164-167 | A cat whose cue is spent plays no pre-sleep cue this tick, and its cue is still spent if it stays in state 10. |
| Loop.PreSleepCueOncePerVisit | main.go:164-167 | Once the cue is spent, no tick of a run sounds it while the cat stays in state 10, up to and including the tick that leaves state 10. |
| Loop.IdleTickNeverLowersState | main.go:189-224 | With no commands, an idling tick never lowers `state`, except on the two policy ticks when the cursor leaves or re-enters the primary monitor. |

## Left out

- The Windows queries `getGlobalMousePos`, `getPrimaryScreenRect` and `getVirtualScreenBounds` are left out. Their results are tick inputs, so their `int32` conversions are not modelled.
- The trigonometry is left out: `math.Atan2`, `Cos`, `Sin`, `Sqrt` and the `math.Mod` normalisation. The heading in degrees, the integer distance and the movement step are inputs, and nothing relates them to each other.
- Floating point is left out: positions and bounds are exact reals. Go's `int(...)` truncation of `dx`/`dy` happens inside the sampled distance.
- DPI conversion to logical pixels, `SetWindowPosition`, `SetWindowFloating` and all drawing calls are left out, because they are rendering side effects.
- Audio playback is left out: `playSound`, the `Quiet` setting and the current player. Cues are returned as events, even when sound is off.
- The tray widget and its checkboxes are left out. So is the choice between the two Sleep (or Hide) closures, and the checkbox the auto-wake unchecks. Commands are given as values.
- The channel's capacity of 10 and its blocking send are left out, along with the goroutine concurrency. The commands a tick drains are a sequence, applied in order.
- Menu actions that only assign configuration are left out: speed, size, opacity, click-through, sound, stay-on-primary toggle and run-on-startup.
- What the draw call does with a nil image is left out. `Frame.Resolve` reports it as a `Missing` picture and the tick goes on.
- The manual-sleep debounce timestamp and the `lastSprite` field exist in the record, but no code path uses them, so they are not modelled.
- Settings persistence, registry writes, process restart, asset decoding and logging are left out.
- The ordering of ebiten's Update and Draw calls is left out. `Loop.Tick` takes one `Update` followed by one `Draw`. The loop runs at 50 ticks per second (main.go:664) while `Draw` runs once per display frame, so a frame can be drawn with no update before it, or several updates can run per frame. `Frame.DrawAgainChangesNothing` states that such an extra `Draw` changes nothing.
- Integer width is left out: `count` is unbounded. While hidden it can grow without limit, but a 64-bit counter at 50 ticks per second does not wrap in practice.

=== FILE: cat.dfy ===
/** The desktop cat's state as the game loop owns it, the sound cues the loop
    emits, and the invariant every step of the loop keeps. */
module Cat {

  /** Sound cues the loop hands to the audio player, named after their assets
      ("idle3", "awake", "sleep"). */
  datatype Cue = Idle3 | Awake | Sleep

  /** The fields of the `neko` record that the behaviour reads or writes.
      `x`/`y` are physical pixels; `count` counts ticks in the current phase;
      `min` is the tick at which the second animation frame starts and `max`
      the tick after which the phase rolls over; `state` drives the idle
      progression. The image handle and the unused debounce timestamp are not
      modelled; the command channel is the `cmds` argument of `Loop.Update`. */
  datatype Neko = Neko(
    waiting: bool,
    manualSleep: bool,
    hidden: bool,
    x: real,
    y: real,
    distance: int,
    count: int,
    min: int,
    max: int,
    state: int,
    sprite: string
  )

  /** The state from which the cat sleeps. */
  const SleepState := 13
  /** Thresholds while seeking (and at start-up). */
  const SeekMin := 8
  const SeekMax := 16
  /** Thresholds the yawn phase switches to. */
  const YawnMin := 32
  const YawnMax := 64

  /** Manual sleep is a kind of waiting: the tray can only set `manualSleep`
      together with `waiting`, and nothing else clears `waiting` while it holds. */
  predicate SleepConsistent(n: Neko) {
    n.manualSleep ==> n.waiting
  }

  /** What holds of every state the program can reach. */
  predicate Valid(n: Neko) {
    && n.state >= 0
    && n.count >= 0
    && ((n.min == SeekMin && n.max == SeekMax) || (n.min == YawnMin && n.max == YawnMax))
    && SleepConsistent(n)
  }

  /** Go's `a / 2` on `int`, which truncates toward zero. */
  function Half(a: int): (h: int)
    ensures a >= 0 ==> 0 <= a - 2 * h <= 1
    ensures a < 0 ==> -1 <= a - 2 * h <= 0
  {
    if a >= 0 then a / 2 else -((-a) / 2)
  }

  /** The record `main` starts the loop with: in the middle of the monitor
      (logical size, halved in integer arithmetic), awake, visible, with the
      seeking thresholds and no sprite chosen yet. */
  function Initial(monitorWidth: int, monitorHeight: int): (r: Neko)
    ensures Valid(r)
    ensures !r.waiting && !r.manualSleep && !r.hidden
    ensures r.state == 0 && r.count == 0 && r.distance == 0 && r.sprite == ""
    ensures (r.min, r.max) == (SeekMin, SeekMax)
    ensures r.x == r.x.Floor as real && r.y == r.y.Floor as real
    ensures monitorWidth >= 0 ==> 0.0 <= monitorWidth as real - 2.0 * r.x <= 1.0
    ensures monitorWidth < 0 ==> -1.0 <= monitorWidth as real - 2.0 * r.x <= 0.0
    ensures monitorHeight >= 0 ==> 0.0 <= monitorHeight as real - 2.0 * r.y <= 1.0
    ensures monitorHeight < 0 ==> -1.0 <= monitorHeight as real - 2.0 * r.y <= 0.0
  {
    Neko(false, false, false, Half(monitorWidth) as real, Half(monitorHeight) as real,
         0, 0, SeekMin, SeekMax, 0, "")
  }
}

=== FILE: commands.dfy ===
/** The tray menu's commands: the closures the tray goroutine queues for the
    game loop, and the drain at the start of every `Update` that applies them
    in the order they were sent. */
module Commands {
  import opened Cat

  datatype Option<T> = None | Some(value: T)

  /** The queued closures of the Sleep, Hide and Teleport menu items. Which of
      the two Sleep (or Hide) closures is queued depends on the menu checkbox,
      which is not modelled. `Teleport` carries the mouse position the closure
      samples when it runs. */
  datatype Command = SleepOn | SleepOff | HideOn | HideOff | Teleport(mx: int, my: int)

  /** Runs one closure on the cat. */
  function Apply(n: Neko, c: Command): (r: Neko)
    ensures c == SleepOn ==> r.waiting && r.manualSleep && r.state == SleepState
    ensures c == SleepOff ==> !r.waiting && !r.manualSleep && r.state == n.state
    ensures (c.SleepOn? || c.SleepOff?) <== (r.waiting, r.manualSleep) != (n.waiting, n.manualSleep)
    ensures c == HideOn ==> r.hidden
    ensures c == HideOff ==> !r.hidden
    ensures r.hidden != n.hidden ==> (c.HideOn? || c.HideOff?) && r.hidden == c.HideOn?
    ensures c.Teleport? ==> r.x == c.mx as real && r.y == c.my as real
    ensures (r.x, r.y) != (n.x, n.y) ==> c.Teleport?
    ensures r.state != n.state ==> c == SleepOn
    ensures SleepConsistent(n) ==> SleepConsistent(r)
    ensures r == n.(waiting := r.waiting, manualSleep := r.manualSleep, state := r.state,
                    hidden := r.hidden, x := r.x, y := r.y)
  {
    match c
    case SleepOn => n.(waiting := true, manualSleep := true, state := SleepState)
    case SleepOff => n.(waiting := false, manualSleep := false)
    case HideOn => n.(hidden := true)
    case HideOff => n.(hidden := false)
    case Teleport(mx, my) => n.(x := mx as real, y := my as real)
  }

  /** Applies a batch of commands, first sent first. */
  function Drain(n: Neko, cmds: seq<Command>): Neko
    decreases |cmds|
  {
    if |cmds| == 0 then n else Drain(Apply(n, cmds[0]), cmds[1..])
  }

  /** The drain loop of `Update`: take commands off the queue one at a time
      until it is empty. */
  method DrainQueue(n: Neko, cmds: seq<Command>) returns (r: Neko)
    ensures r == Drain(n, cmds)
  {
    r := n;
    var i := 0;
    while i < |cmds|
      invariant 0 <= i <= |cmds|
      invariant Drain(r, cmds[i..]) == Drain(n, cmds)
    {
      assert cmds[i..][1..] == cmds[i + 1..];
      r := Apply(r, cmds[i]);
      i := i + 1;
    }
  }

  /** Draining a batch in one go or in two consecutive parts gives the same
      state. */
  lemma {:induction false} DrainSplit(n: Neko, a: seq<Command>, b: seq<Command>)
    ensures Drain(n, a + b) == Drain(Drain(n, a), b)
    decreases |a|
  {
    if |a| == 0 {
      assert a + b == b;
    } else {
      assert (a + b)[1..] == a[1..] + b;
      DrainSplit(Apply(n, a[0]), a[1..], b);
    }
  }

  /** Draining keeps the invariant. */
  lemma {:induction false} DrainKeepsValid(n: Neko, cmds: seq<Command>)
    requires Valid(n)
    ensures Valid(Drain(n, cmds))
    decreases |cmds|
  {
    if |cmds| > 0 {
      DrainKeepsValid(Apply(n, cmds[0]), cmds[1..]);
    }
  }

  /** Commands never touch the phase counters, the thresholds or the sprite. */
  lemma {:induction false} DrainKeepsPhase(n: Neko, cmds: seq<Command>)
    ensures var d := Drain(n, cmds);
      (d.count, d.min, d.max, d.sprite, d.distance) == (n.count, n.min, n.max, n.sprite, n.distance)
    decreases |cmds|
  {
    if |cmds| > 0 {
      DrainKeepsPhase(Apply(n, cmds[0]), cmds[1..]);
    }
  }

  /** The value the last Sleep command of a batch gives both `waiting` and
      `manualSleep`, if the batch has one. */
  function LastSleep(cmds: seq<Command>): Option<bool>
  {
    if |cmds| == 0 then None
    else match cmds[|cmds| - 1]
      case SleepOn => Some(true)
      case SleepOff => Some(false)
      case _ => LastSleep(cmds[..|cmds| - 1])
  }

  /** The value the last Hide command of a batch gives `hidden`, if any. */
  function LastHide(cmds: seq<Command>): Option<bool>
  {
    if |cmds| == 0 then None
    else match cmds[|cmds| - 1]
      case HideOn => Some(true)
      case HideOff => Some(false)
      case _ => LastHide(cmds[..|cmds| - 1])
  }

  /** The position the last Teleport of a batch moves to, if any. */
  function LastTeleport(cmds: seq<Command>): Option<(int, int)>
  {
    if |cmds| == 0 then None
    else match cmds[|cmds| - 1]
      case Teleport(mx, my) => Some((mx, my))
      case _ => LastTeleport(cmds[..|cmds| - 1])
  }

  /** The effect of a batch described field by field: each field the batch
      writes ends with the value its last writer gives it, every other field
      keeps its value. Only manual sleep writes `state`. */
  function Overlay(n: Neko, cmds: seq<Command>): Neko
  {
    var sleep := LastSleep(cmds);
    var hiding := LastHide(cmds);
    var tele := LastTeleport(cmds);
    n.(waiting := if sleep.Some? then sleep.value else n.waiting,
       manualSleep := if sleep.Some? then sleep.value else n.manualSleep,
       state := if SleepOn in cmds then SleepState else n.state,
       hidden := if hiding.Some? then hiding.value else n.hidden,
       x := if tele.Some? then tele.value.0 as real else n.x,
       y := if tele.Some? then tele.value.1 as real else n.y)
  }

  /** Sending one more command changes the overlay the way applying it does. */
  lemma OverlaySnoc(n: Neko, init: seq<Command>, c: Command)
    ensures Overlay(n, init + [c]) == Apply(Overlay(n, init), c)
  {
  }

  /** Draining a batch in order is the last-writer-wins overlay of it. */
  lemma {:induction false} DrainIsOverlay(n: Neko, cmds: seq<Command>)
    ensures Drain(n, cmds) == Overlay(n, cmds)
    decreases |cmds|
  {
    if |cmds| > 0 {
      var init := cmds[..|cmds| - 1];
      var c := cmds[|cmds| - 1];
      assert cmds == init + [c];
      DrainSplit(n, init, [c]);
      DrainIsOverlay(n, init);
      OverlaySnoc(n, init, c);
    }
  }

  /** An empty queue leaves the cat as it was. */
  lemma DrainEmpty(n: Neko)
    ensures Drain(n, []) == n
  {
  }
}

=== FILE: frame.dfy ===
/** The non-rendering part of `Draw`: which frame key is shown, which image it
    resolves to, and the phase rollover that advances the idle progression. */
module Frame {
  import opened Cat
  import Idle
  import Seek

  /** Every sprite the behaviour can select. */
  const Sprites: set<string> := Idle.IdleSprites + Seek.DirectionSprites

  /** The key shown when a requested frame has no image. */
  const Fallback := "awake"

  /** What one `Draw` puts on screen for the requested frame `key`: nothing
      (a hidden cat), the image stored under `image`, or no image at all when
      neither the frame nor the fallback is loaded and a nil image reaches the
      draw call. */
  datatype Picture = Blank | Show(key: string, image: string) | Missing(key: string)

  /** The state after drawing, the picture, and the cues emitted. */
  datatype Drawn = Drawn(cat: Neko, picture: Picture, cues: seq<Cue>)

  /** The frame key for a sprite: "awake" has a single frame; every other
      sprite shows frame 1 before tick `min` of its phase and frame 2 after. */
  function FrameKey(sprite: string, count: int, min: int): (key: string)
    ensures sprite == "awake" ==> key == sprite
    ensures sprite != "awake" ==>
      && |key| == |sprite| + 1
      && key[..|sprite|] == sprite
      && (key[|sprite|] == '1' <==> count < min)
      && key[|sprite|] in "12"
  {
    if sprite == "awake" then sprite
    else if count < min then sprite + "1"
    else sprite + "2"
  }

  /** Splits a frame key into its sprite and its frame number, 0 standing for
      the single frame of "awake". */
  function SplitKey(key: string): (string, int)
  {
    if key == "awake" then (key, 0)
    else if |key| > 0 && key[|key| - 1] == '1' then (key[..|key| - 1], 1)
    else if |key| > 0 && key[|key| - 1] == '2' then (key[..|key| - 1], 2)
    else (key, 0)
  }

  /** A frame key names its sprite and its frame: splitting it gives both back. */
  lemma SplitKeyInvertsFrameKey(sprite: string, count: int, min: int)
    requires sprite in Sprites
    ensures SplitKey(FrameKey(sprite, count, min))
         == (sprite, if sprite == "awake" then 0 else if count < min then 1 else 2)
  {
  }

  /** The picture a frame key resolves to: the image stored under the key,
      otherwise the fallback's image, otherwise nothing to draw. */
  function Resolve(assets: set<string>, key: string): (r: Picture)
    ensures !r.Blank? && r.key == key
    ensures r.Show? ==> r.image in assets && (r.image == key || r.image == Fallback)
    ensures key in assets ==> r == Show(key, key)
    ensures r.Missing? <==> key !in assets && Fallback !in assets
  {
    if key in assets then Show(key, key)
    else if Fallback in assets then Show(key, Fallback)
    else Missing(key)
  }

  /** One `Draw`, minus the rendering. A hidden cat draws nothing and changes
      nothing. Otherwise the frame of the current sprite is shown and, once the
      phase has run past `max`, `count` restarts and an idling cat (state
      above 0) moves on to the next state, sounding the sleep cue when that
      state is the first sleeping one. */
  function Draw(n: Neko, assets: set<string>): (r: Drawn)
    ensures n.hidden ==> r == Drawn(n, Blank, [])
    ensures !n.hidden ==> r.picture == Resolve(assets, FrameKey(n.sprite, n.count, n.min))
    ensures n.state <= r.cat.state <= n.state + 1
    ensures r.cat.state == n.state + 1 <==> !n.hidden && n.count > n.max && n.state > 0
    ensures r.cat.count == (if !n.hidden && n.count > n.max then 0 else n.count)
    ensures r.cues == (if r.cat.state != n.state && r.cat.state == SleepState then [Sleep] else [])
    ensures r.cat == n.(count := r.cat.count, state := r.cat.state)
  {
    if n.hidden then Drawn(n, Blank, [])
    else
      var key := FrameKey(n.sprite, n.count, n.min);
      var picture := Resolve(assets, key);
      if n.count > n.max then
        if n.state > 0 then
          var state := n.state + 1;
          Drawn(n.(count := 0, state := state), picture, if state == SleepState then [Sleep] else [])
        else Drawn(n.(count := 0), picture, [])
      else Drawn(n, picture, [])
  }

  /** The image names every frame of every sprite needs: "awake" once, every
      other sprite with frames 1 and 2. */
  const Frames: set<string> := {
    "awake",
    "alert1", "alert2", "scratch1", "scratch2", "wash1", "wash2",
    "yawn1", "yawn2", "sleep1", "sleep2",
    "up1", "up2", "upright1", "upright2", "right1", "right2",
    "downright1", "downright2", "down1", "down2", "downleft1", "downleft2",
    "left1", "left2", "upleft1", "upleft2"
  }

  /** Every frame key of a known sprite is one of the 27 names in `Frames`. */
  lemma KnownSpriteHasFrame(sprite: string, count: int, min: int)
    requires sprite in Sprites
    ensures FrameKey(sprite, count, min) in Frames
  {
    var key := FrameKey(sprite, count, min);
    var digit := if count < min then "1" else "2";
    if sprite != "awake" {
      assert key == sprite + digit;
      if sprite == "alert" {
        assert key == "alert1" || key == "alert2";
      } else if sprite == "scratch" {
        assert key == "scratch1" || key == "scratch2";
      } else if sprite == "wash" {
        assert key == "wash1" || key == "wash2";
      } else if sprite == "yawn" {
        assert key == "yawn1" || key == "yawn2";
      } else if sprite == "sleep" {
        assert key == "sleep1" || key == "sleep2";
      } else if sprite == "up" {
        assert key == "up1" || key == "up2";
      } else if sprite == "upright" {
        assert key == "upright1" || key == "upright2";
      } else if sprite == "right" {
        assert key == "right1" || key == "right2";
      } else if sprite == "downright" {
        assert key == "downright1" || key == "downright2";
      } else if sprite == "down" {
        assert key == "down1" || key == "down2";
      } else if sprite == "downleft" {
        assert key == "downleft1" || key == "downleft2";
      } else if sprite == "left" {
        assert key == "left1" || key == "left2";
      } else if sprite == "upleft" {
        assert key == "upleft1" || key == "upleft2";
      }
    }
  }

  /** A set of images holding all of `Frames` never falls back: every frame
      of a known sprite is drawn with its own image. */
  lemma KnownSpriteNeverFallsBack(sprite: string, count: int, min: int, assets: set<string>)
    requires sprite in Sprites
    requires Frames <= assets
    ensures Resolve(assets, FrameKey(sprite, count, min)) == Show(FrameKey(sprite, count, min), FrameKey(sprite, count, min))
  {
    KnownSpriteHasFrame(sprite, count, min);
  }

  /** Drawing keeps the invariant, and a visible cat leaves `Draw` with
      `count` within its phase. */
  lemma DrawKeepsValid(n: Neko, assets: set<string>)
    requires Valid(n)
    ensures Valid(Draw(n, assets).cat)
    ensures !n.hidden ==> Draw(n, assets).cat.count <= Draw(n, assets).cat.max
  {
  }

  /** A second `Draw` with no `Update` in between changes nothing and sounds
      nothing: the first one has already brought `count` within `max`. */
  lemma DrawAgainChangesNothing(n: Neko, assets: set<string>, assets': set<string>)
    requires Valid(n)
    ensures Draw(Draw(n, assets).cat, assets').cat == Draw(n, assets).cat
    ensures Draw(Draw(n, assets).cat, assets').cues == []
  {
    DrawKeepsValid(n, assets);
  }
}

=== FILE: idle.dfy ===
/** The idle progression (`stayIdle`): the sprite and thresholds each value of
    `state` selects while the cat is not chasing the cursor. */
module Idle {
  import opened Cat

  /** Sprites the idle progression can show. */
  const IdleSprites: set<string> := {"awake", "alert", "scratch", "wash", "yawn", "sleep"}

  /** A row of the progression: states `lo` to `hi` inclusive show `sprite`. */
  datatype Phase = Phase(lo: int, hi: int, sprite: string)

  /** The progression in the order an idling cat goes through it. Every state
      no row covers (13 upwards, and any negative value) shows "sleep". */
  const Progression: seq<Phase> := [
    Phase(0, 1, "awake"),
    Phase(2, 3, "alert"),
    Phase(4, 5, "scratch"),
    Phase(6, 7, "wash"),
    Phase(8, 9, "yawn"),
    Phase(10, 12, "awake")
  ]

  /** The sprite a progression table assigns to `state`: the first row that
      covers it, or "sleep" when none does. */
  function PhaseSprite(table: seq<Phase>, state: int): string
  {
    if |table| == 0 then "sleep"
    else if table[0].lo <= state <= table[0].hi then table[0].sprite
    else PhaseSprite(table[1..], state)
  }

  /** One idle tick: leaves state 0 for state 1, picks the sprite of the
      current phase and, in the yawn phase, lengthens the thresholds. */
  function StayIdle(n: Neko): (r: Neko)
    ensures r.state == (if n.state == 0 then 1 else n.state)
    ensures r.sprite in IdleSprites
    ensures (r.min, r.max) == (if 8 <= n.state <= 9 then (YawnMin, YawnMax) else (n.min, n.max))
    ensures r == n.(state := r.state, min := r.min, max := r.max, sprite := r.sprite)
  {
    var m := if n.state == 0 then n.(state := 1) else n;
    match m.state
    case 1 => m.(sprite := "awake")
    case 2 | 3 => m.(sprite := "alert")
    case 4 | 5 => m.(sprite := "scratch")
    case 6 | 7 => m.(sprite := "wash")
    case 8 | 9 => m.(min := YawnMin, max := YawnMax, sprite := "yawn")
    case 10 | 11 | 12 => m.(sprite := "awake")
    case _ => m.(sprite := "sleep")
  }

  /** The progression rows tile the states 0 to 12 in order, leaving sleep for
      the states from `SleepState` on. */
  lemma ProgressionTilesStates()
    ensures Progression[0].lo == 0
    ensures Progression[|Progression| - 1].hi == SleepState - 1
    ensures forall i :: 0 <= i < |Progression| ==> Progression[i].lo <= Progression[i].hi
    ensures forall i :: 0 <= i < |Progression| - 1 ==> Progression[i].hi + 1 == Progression[i + 1].lo
  {
  }

  /** `StayIdle` shows exactly the sprite the progression table assigns to the
      state it was called with. */
  lemma StayIdleFollowsProgression(n: Neko)
    ensures StayIdle(n).sprite == PhaseSprite(Progression, n.state)
  {
    var s := n.state;
    var t := Progression;
    assert PhaseSprite(t[6..], s) == "sleep";
    assert PhaseSprite(t[5..], s) == if 10 <= s <= 12 then "awake" else PhaseSprite(t[6..], s);
    assert PhaseSprite(t[4..], s) == if 8 <= s <= 9 then "yawn" else PhaseSprite(t[5..], s);
    assert PhaseSprite(t[3..], s) == if 6 <= s <= 7 then "wash" else PhaseSprite(t[4..], s);
    assert PhaseSprite(t[2..], s) == if 4 <= s <= 5 then "scratch" else PhaseSprite(t[3..], s);
    assert PhaseSprite(t[1..], s) == if 2 <= s <= 3 then "alert" else PhaseSprite(t[2..], s);
    assert PhaseSprite(t, s) == if 0 <= s <= 1 then "awake" else PhaseSprite(t[1..], s);
  }
}

=== FILE: loop.dfy ===
/** One tick of the game loop: `Update` (drain the tray's commands, count the
    tick, apply the stay-on-primary policy, then idle or chase the cursor)
    followed by `Draw`. */
module Loop {
  import opened Cat
  import opened Idle
  import opened Seek
  import opened Commands
  import opened Frame

  /** The configuration the loop reads: the stay-on-primary policy, and the
      catch distance `int(width * scale)` below which the cat stops. */
  datatype Config = Config(stayOnPrimary: bool, catchThreshold: int)

  /** A screen rectangle in physical pixels: left, top, width, height. */
  datatype Rect = Rect(x: int, y: int, w: int, h: int)

  /** What the loop samples from the system in one tick. `distance` is the
      integer distance from the cat to the cursor and `heading` the direction
      of the cursor in degrees (`atan2` normalised into [0, 360));
      `moveX`/`moveY` is the step towards it at the configured speed; `catW`
      and `catH` are the window's size in physical pixels. */
  datatype Sample = Sample(
    mouseX: int,
    mouseY: int,
    distance: int,
    heading: real,
    moveX: real,
    moveY: real,
    primaryW: int,
    primaryH: int,
    screen: Rect,
    catW: real,
    catH: real
  )

  /** The state after `Update` and the cues it emitted, in order. */
  datatype Step = Step(cat: Neko, cues: seq<Cue>)

  /** The state after a whole tick, the picture drawn and every cue emitted. */
  datatype Ticked = Ticked(cat: Neko, picture: Picture, cues: seq<Cue>)

  /** The cursor lies outside the primary monitor, taken as the closed
      rectangle [0, primaryW] x [0, primaryH]. */
  predicate OffPrimary(s: Sample) {
    s.mouseX < 0 || s.mouseX > s.primaryW || s.mouseY < 0 || s.mouseY > s.primaryH
  }

  function RealMax(a: real, b: real): real { if a >= b then a else b }
  function RealMin(a: real, b: real): real { if a <= b then a else b }

  /** Keeps one coordinate of the cat inside a screen span `[lo, lo + extent]`
      so that a cat `size` wide fits. When it cannot fit, the lower bound wins. */
  function Clamp(v: real, lo: int, extent: int, size: real): (r: real)
    ensures size <= extent as real ==> lo as real <= r <= (lo + extent) as real - size
    ensures size > extent as real ==> r == lo as real
    ensures lo as real <= v <= (lo + extent) as real - size ==> r == v
    ensures size <= extent as real && v < lo as real ==> r == lo as real
    ensures size <= extent as real && v > (lo + extent) as real - size ==> r == (lo + extent) as real - size
  {
    RealMax(lo as real, RealMin(v, (lo + extent) as real - size))
  }

  /** Clamping an already clamped coordinate leaves it where it is. */
  lemma ClampIdempotent(v: real, lo: int, extent: int, size: real)
    ensures Clamp(Clamp(v, lo, extent, size), lo, extent, size) == Clamp(v, lo, extent, size)
  {
  }

  /** The state the idle progression continues from once the stay-on-primary
      policy has run: 13 on the tick the cursor leaves the primary monitor, 0
      on the tick it comes back, and the drained state on every other tick. */
  function PolicyState(d: Neko, cfg: Config, s: Sample): int
  {
    if cfg.stayOnPrimary && !d.manualSleep && OffPrimary(s) != d.waiting then
      if OffPrimary(s) then SleepState else 0
    else d.state
  }

  /** The part of `Update` after the drain, on the drained state `d`: count
      the tick (sounding the pre-sleep cue when state 10 reaches `min`), then
      either fall asleep because the cursor left the primary monitor, idle
      because the cat is waiting or already near the cursor, or take one
      clamped step towards the cursor and face it (sounding the waking cue
      when leaving sleep). */
  function Behave(d: Neko, cfg: Config, s: Sample): (r: Step)
    ensures r.cat.count == d.count + 1
    ensures r.cat.distance == s.distance && r.cat.hidden == d.hidden && r.cat.manualSleep == d.manualSleep
    ensures Idle3 in r.cues <==> d.state == 10 && d.count + 1 == d.min
    ensures r.cues == (if Idle3 in r.cues then [Idle3] else []) + (if Awake in r.cues then [Awake] else [])
    ensures r.cat.sprite in Sprites
    ensures r.cat.waiting == if cfg.stayOnPrimary && !d.manualSleep then OffPrimary(s) else d.waiting
    ensures cfg.stayOnPrimary && !d.manualSleep && OffPrimary(s) ==>
      && r.cat.x == d.x && r.cat.y == d.y
      && (!d.waiting ==> r.cat.state == SleepState && r.cat.sprite == "sleep")
      && (d.waiting ==> r.cat.state == (if d.state == 0 then 1 else d.state))
    ensures cfg.stayOnPrimary && !d.manualSleep && !OffPrimary(s) && d.waiting ==> 0 <= r.cat.state <= 1
    ensures r.cat.waiting || s.distance < cfg.catchThreshold ==>
      && r.cat.x == d.x && r.cat.y == d.y
      && Awake !in r.cues
      && r.cat.sprite in IdleSprites
    ensures !r.cat.waiting && s.distance >= cfg.catchThreshold ==>
      && r.cat.x == Clamp(d.x + s.moveX, s.screen.x, s.screen.w, s.catW)
      && r.cat.y == Clamp(d.y + s.moveY, s.screen.y, s.screen.h, s.catH)
      && r.cat.state == 0 && r.cat.min == SeekMin && r.cat.max == SeekMax
      && r.cat.sprite == Name(Bucket(s.heading)) && r.cat.sprite in DirectionSprites
      && (Awake in r.cues <==> !d.waiting && d.state >= SleepState)
  {
    var m := d.(count := d.count + 1);
    var idle3 := if m.state == 10 && m.count == m.min then [Idle3] else [];
    var m := m.(distance := s.distance);
    if cfg.stayOnPrimary && !m.manualSleep && OffPrimary(s) then
      var m := if !m.waiting then m.(waiting := true, state := SleepState) else m;
      Step(StayIdle(m), idle3)
    else
      // The wake-up test repeats the outer `!manualSleep` test, as the source nests it.
      var m := if cfg.stayOnPrimary && !m.manualSleep && m.waiting && !m.manualSleep
               then m.(waiting := false, state := 0) else m;
      if m.waiting then Step(StayIdle(m), idle3)
      else if m.distance < cfg.catchThreshold then Step(StayIdle(m), idle3)
      else
        var awake := if m.state >= SleepState then [Awake] else [];
        var m := m.(x := m.x + s.moveX, y := m.y + s.moveY);
        var m := m.(x := Clamp(m.x, s.screen.x, s.screen.w, s.catW),
                    y := Clamp(m.y, s.screen.y, s.screen.h, s.catH));
        Step(CatchCursor(m, s.heading), idle3 + awake)
  }

  /** A cat that idles this tick continues the progression table from the
      state the stay-on-primary policy leaves: it shows that state's sprite,
      leaves state 0 for 1, and takes the yawn thresholds in states 8-9. */
  lemma IdleFollowsPolicy(d: Neko, cfg: Config, s: Sample)
    ensures var r := Behave(d, cfg, s); var p := PolicyState(d, cfg, s);
      r.cat.waiting || s.distance < cfg.catchThreshold ==>
        && r.cat.state == (if p == 0 then 1 else p)
        && r.cat.sprite == PhaseSprite(Progression, p)
        && (r.cat.min, r.cat.max) == (if 8 <= p <= 9 then (YawnMin, YawnMax) else (d.min, d.max))
  {
    var p := PolicyState(d, cfg, s);
    StayIdleFollowsProgression(d.(state := p));
  }

  /** One `Update`: every queued command is applied, in order, before
      anything else happens in the tick. Commands never touch `count`, so the
      tick counter rises by exactly one over the whole update, and the
      pre-sleep cue depends on the counter and thresholds as they were. */
  function Update(n: Neko, cmds: seq<Command>, cfg: Config, s: Sample): (r: Step)
    ensures r.cat.count == n.count + 1
    ensures Idle3 in r.cues <==> Drain(n, cmds).state == 10 && n.count + 1 == n.min
    ensures r.cat.hidden == Drain(n, cmds).hidden
    ensures SleepConsistent(n) ==> SleepConsistent(r.cat)
    ensures var d := Drain(n, cmds);
      && r.cat.manualSleep == d.manualSleep
      && r.cat.waiting == (if cfg.stayOnPrimary && !d.manualSleep then OffPrimary(s) else d.waiting)
    ensures var d := Drain(n, cmds);
      r.cat.waiting || s.distance < cfg.catchThreshold ==> r.cat.x == d.x && r.cat.y == d.y
    ensures var d := Drain(n, cmds);
      !r.cat.waiting && s.distance >= cfg.catchThreshold ==>
        && r.cat.x == Clamp(d.x + s.moveX, s.screen.x, s.screen.w, s.catW)
        && r.cat.y == Clamp(d.y + s.moveY, s.screen.y, s.screen.h, s.catH)
  {
    DrainKeepsPhase(n, cmds);
    DrainIsOverlay(n, cmds);
    Behave(Drain(n, cmds), cfg, s)
  }

  /** A teleport takes effect within the update that drains it: an idling
      cat stands exactly at the position the batch's last teleport sampled. */
  lemma TeleportLandsInUpdate(n: Neko, cmds: seq<Command>, cfg: Config, s: Sample)
    requires LastTeleport(cmds).Some?
    ensures var r := Update(n, cmds, cfg, s).cat; var p := LastTeleport(cmds).value;
      r.waiting || s.distance < cfg.catchThreshold ==> r.x == p.0 as real && r.y == p.1 as real
  {
    DrainIsOverlay(n, cmds);
  }

  /** `Update` keeps the invariant; in particular manual sleep still implies
      waiting, because automatic waking only happens without manual sleep. */
  lemma UpdateKeepsValid(n: Neko, cmds: seq<Command>, cfg: Config, s: Sample)
    requires Valid(n)
    ensures Valid(Update(n, cmds, cfg, s).cat)
  {
    DrainKeepsValid(n, cmds);
  }

  /** An update whose batch ends its sleep commands with "sleep" leaves the
      cat asleep, wherever the cursor is. */
  lemma ManualSleepShowsSleep(n: Neko, cmds: seq<Command>, cfg: Config, s: Sample)
    requires LastSleep(cmds) == Some(true)
    ensures Update(n, cmds, cfg, s).cat.waiting && Update(n, cmds, cfg, s).cat.manualSleep
    ensures Update(n, cmds, cfg, s).cat.state == SleepState
    ensures Update(n, cmds, cfg, s).cat.sprite == "sleep"
  {
    DrainIsOverlay(n, cmds);
    LastSleepOnIsSent(cmds);
  }

  /** A batch whose last sleep command is "sleep" contains that command. */
  lemma {:induction false} LastSleepOnIsSent(cmds: seq<Command>)
    ensures LastSleep(cmds) == Some(true) ==> SleepOn in cmds
    decreases |cmds|
  {
    if |cmds| > 0 && cmds[|cmds| - 1] != SleepOn {
      LastSleepOnIsSent(cmds[..|cmds| - 1]);
      assert forall c :: c in cmds[..|cmds| - 1] ==> c in cmds;
    }
  }

  /** One whole tick: `Update`, then `Draw` with the loaded images. */
  function Tick(n: Neko, cmds: seq<Command>, cfg: Config, s: Sample, assets: set<string>): (r: Ticked)
    ensures r.picture.Blank? <==> Drain(n, cmds).hidden
    ensures !r.picture.Blank? ==> r.picture.key in Frames
    ensures !r.picture.Blank? ==> SplitKey(r.picture.key).0 == Update(n, cmds, cfg, s).cat.sprite
    ensures Sleep in r.cues ==> r.cat.state == SleepState
    ensures |r.cues| <= 1
  {
    var u := Update(n, cmds, cfg, s);
    KnownSpriteHasFrame(u.cat.sprite, u.cat.count, u.cat.min);
    SplitKeyInvertsFrameKey(u.cat.sprite, u.cat.count, u.cat.min);
    var drawn := Draw(u.cat, assets);
    Ticked(drawn.cat, drawn.picture, u.cues + drawn.cues)
  }

  /** Every tick keeps the invariant. */
  lemma TickKeepsValid(n: Neko, cmds: seq<Command>, cfg: Config, s: Sample, assets: set<string>)
    requires Valid(n)
    ensures Valid(Tick(n, cmds, cfg, s, assets).cat)
  {
    UpdateKeepsValid(n, cmds, cfg, s);
    DrawKeepsValid(Update(n, cmds, cfg, s).cat, assets);
  }

  /** With an image for every frame of every sprite, a tick never shows the
      fallback in place of the frame it asked for. */
  lemma TickNeverFallsBack(n: Neko, cmds: seq<Command>, cfg: Config, s: Sample, assets: set<string>)
    requires Frames <= assets
    ensures var r := Tick(n, cmds, cfg, s, assets);
      r.picture.Blank? || r.picture == Show(r.picture.key, r.picture.key)
  {
    var u := Update(n, cmds, cfg, s).cat;
    KnownSpriteNeverFallsBack(u.sprite, u.count, u.min, assets);
  }

  /** The pre-sleep cue does not sound on two ticks in a row: once it has
      sounded, `count` has passed `min` and only a rollover, which also leaves
      state 10, can bring it back. */
  lemma PreSleepCueNotRepeated(n: Neko, cmds: seq<Command>, cfg: Config, s: Sample, assets: set<string>,
                               cmds': seq<Command>, cfg': Config, s': Sample, assets': set<string>)
    requires Idle3 in Tick(n, cmds, cfg, s, assets).cues
    ensures Idle3 !in Tick(Tick(n, cmds, cfg, s, assets).cat, cmds', cfg', s', assets').cues
  {
    var t := Tick(n, cmds, cfg, s, assets).cat;
    PreSleepCueSpends(n, cmds, cfg, s, assets);
    if t.state == 10 {
      CueSpentKeepsSilent(t, cmds', cfg', s', assets');
    } else {
      DrainIsOverlay(t, cmds');
    }
  }

  /** The pre-sleep cue of the current visit to state 10 has had its tick:
      `count` has reached `min`, and only a rollover, which leaves state 10,
      resets it. */
  predicate CueSpent(n: Neko) {
    n.state == 10 && n.count >= n.min
  }

  /** The tick that sounds the pre-sleep cue spends it, if the cat stays in
      state 10. */
  lemma PreSleepCueSpends(n: Neko, cmds: seq<Command>, cfg: Config, s: Sample, assets: set<string>)
    requires Idle3 in Tick(n, cmds, cfg, s, assets).cues
    ensures Tick(n, cmds, cfg, s, assets).cat.state == 10 ==> CueSpent(Tick(n, cmds, cfg, s, assets).cat)
  {
    DrainKeepsPhase(n, cmds);
  }

  /** A spent cue stays silent, and stays spent while the cat remains in
      state 10, whatever the commands and inputs of the tick. */
  lemma CueSpentKeepsSilent(n: Neko, cmds: seq<Command>, cfg: Config, s: Sample, assets: set<string>)
    requires CueSpent(n)
    ensures Idle3 !in Tick(n, cmds, cfg, s, assets).cues
    ensures Tick(n, cmds, cfg, s, assets).cat.state == 10 ==> CueSpent(Tick(n, cmds, cfg, s, assets).cat)
  {
    DrainKeepsPhase(n, cmds);
    DrainIsOverlay(n, cmds);
  }

  /** What one tick reads besides the cat: the drained commands, the
      configuration, the sampled inputs and the loaded images. */
  datatype Input = Input(cmds: seq<Command>, cfg: Config, s: Sample, assets: set<string>)

  function TickOn(n: Neko, i: Input): Ticked {
    Tick(n, i.cmds, i.cfg, i.s, i.assets)
  }

  /** Every tick of a run but possibly the last leaves the cat in state 10. */
  predicate StaysAt10(n: Neko, ins: seq<Input>)
    decreases |ins|
  {
    |ins| <= 1 || (TickOn(n, ins[0]).cat.state == 10 && StaysAt10(TickOn(n, ins[0]).cat, ins[1..]))
  }

  /** The cues a run of ticks sounds, in order. */
  function RunCues(n: Neko, ins: seq<Input>): seq<Cue>
    decreases |ins|
  {
    if |ins| == 0 then [] else TickOn(n, ins[0]).cues + RunCues(TickOn(n, ins[0]).cat, ins[1..])
  }

  /** Once the pre-sleep cue is spent it does not sound again for as long as
      the cat stays in state 10, including on the tick that leaves it. */
  lemma {:induction false} PreSleepCueOncePerVisit(n: Neko, ins: seq<Input>)
    requires CueSpent(n)
    requires StaysAt10(n, ins)
    ensures Idle3 !in RunCues(n, ins)
    decreases |ins|
  {
    if |ins| > 0 {
      var t := TickOn(n, ins[0]);
      CueSpentKeepsSilent(n, ins[0].cmds, ins[0].cfg, ins[0].s, ins[0].assets);
      if |ins| > 1 {
        PreSleepCueOncePerVisit(t.cat, ins[1..]);
      } else {
        assert RunCues(t.cat, ins[1..]) == [];
      }
    }
  }

  /** With no commands, a tick in which the cat idles never lowers `state`,
      unless the stay-on-primary policy moves it: to sleep on the tick the
      cursor leaves the primary monitor (which takes any state above 13 down
      to 13) or to state 0 on the tick it comes back. */
  lemma IdleTickNeverLowersState(n: Neko, cfg: Config, s: Sample, assets: set<string>)
    requires !(cfg.stayOnPrimary && !n.manualSleep && OffPrimary(s) != n.waiting)
    requires n.waiting || s.distance < cfg.catchThreshold
    ensures Tick(n, [], cfg, s, assets).cat.state >= n.state
  {
  }
}

=== FILE: seek.dfy ===
/** The seek step (`catchCursor`): re-arming the idle progression and turning
    the heading towards the cursor into one of eight direction sprites. */
module Seek {
  import opened Cat

  /** The eight directions the cat can run in; screen y grows downwards, so a
      heading of 90 degrees points down. */
  datatype Direction = Up | UpRight | Right | DownRight | Down | DownLeft | Left | UpLeft

  /** The sprite name of a direction. */
  function Name(d: Direction): string
  {
    match d
    case Up => "up"
    case UpRight => "upright"
    case Right => "right"
    case DownRight => "downright"
    case Down => "down"
    case DownLeft => "downleft"
    case Left => "left"
    case UpLeft => "upleft"
  }

  /** Sprites the seek step can show. */
  const DirectionSprites: set<string> :=
    {"up", "upright", "right", "downright", "down", "downleft", "left", "upleft"}

  /** Distinct directions have distinct sprite names. */
  lemma NameInjective(d: Direction, e: Direction)
    ensures Name(d) == Name(e) ==> d == e
  {
  }

  /** The guard chain of `catchCursor`, tested in the same order. Every real
      passes one of the guards: "right" takes everything at or below 22.5 and
      everything above 337.5. */
  function Bucket(a: real): Direction
  {
    if a <= 292.5 && a > 247.5 then Up
    else if a <= 337.5 && a > 292.5 then UpRight
    else if a <= 22.5 || a > 337.5 then Right
    else if a <= 67.5 && a > 22.5 then DownRight
    else if a <= 112.5 && a > 67.5 then Down
    else if a <= 157.5 && a > 112.5 then DownLeft
    else if a <= 202.5 && a > 157.5 then Left
    else if a <= 247.5 && a > 202.5 then UpLeft
    else assert false; Right
  }

  /** A 45-degree sector (lo, hi] of the compass and the direction it faces. */
  datatype Sector = Sector(lo: real, hi: real, dir: Direction)

  /** The eight sectors, each centred on its direction; "right" is centred on 0
      and so wraps around 360. */
  const Sectors: seq<Sector> := [
    Sector(-22.5, 22.5, Right),
    Sector(22.5, 67.5, DownRight),
    Sector(67.5, 112.5, Down),
    Sector(112.5, 157.5, DownLeft),
    Sector(157.5, 202.5, Left),
    Sector(202.5, 247.5, UpLeft),
    Sector(247.5, 292.5, Up),
    Sector(292.5, 337.5, UpRight)
  ]

  /** Heading `a` (degrees, taken modulo one turn) lies in sector `s`. */
  predicate InSector(a: real, s: Sector) {
    (s.lo < a <= s.hi) || (s.lo < a - 360.0 <= s.hi)
  }

  /** Every heading in [0, 360) lies in exactly one sector. */
  lemma SectorsPartition(a: real)
    requires 0.0 <= a < 360.0
    ensures exists i :: 0 <= i < |Sectors| && InSector(a, Sectors[i])
    ensures forall i, j ::
      (0 <= i < |Sectors| && 0 <= j < |Sectors| && InSector(a, Sectors[i]) && InSector(a, Sectors[j])) ==> i == j
  {
    var k := if a <= 22.5 || a > 337.5 then 0
             else if a <= 67.5 then 1
             else if a <= 112.5 then 2
             else if a <= 157.5 then 3
             else if a <= 202.5 then 4
             else if a <= 247.5 then 5
             else if a <= 292.5 then 6
             else 7;
    assert InSector(a, Sectors[k]);
  }

  /** The guard chain faces a sector's direction exactly when the heading lies
      in that sector. */
  lemma BucketAgreesWithSectors(a: real)
    ensures 0.0 <= a < 360.0 ==>
      forall i :: 0 <= i < |Sectors| ==> (Bucket(a) == Sectors[i].dir <==> InSector(a, Sectors[i]))
  {
  }

  /** The seek step: resets the idle progression and the thresholds and faces
      the sprite of the sector the heading lies in. */
  function CatchCursor(n: Neko, a: real): (r: Neko)
    ensures r.state == 0 && r.min == SeekMin && r.max == SeekMax
    ensures r.sprite in DirectionSprites
    ensures 0.0 <= a < 360.0 ==>
      forall i :: 0 <= i < |Sectors| ==> (r.sprite == Name(Sectors[i].dir) <==> InSector(a, Sectors[i]))
    ensures r == n.(state := 0, min := SeekMin, max := SeekMax, sprite := r.sprite)
  {
    BucketAgreesWithSectors(a);
    forall d: Direction, e: Direction ensures Name(d) == Name(e) ==> d == e {
      NameInjective(d, e);
    }
    n.(state := 0, min := SeekMin, max := SeekMax, sprite := Name(Bucket(a)))
  }
}
